=== FILE: README.md ===
# request-id middleware, modelled in Dafny

This project models the `RequestID` namespace of `@splytech-io/request-id`.
That namespace is a Koa middleware that gives each inbound HTTP request a correlation id.
It adopts the id from the inbound `x-request-id` header (or a configured header name) when that header has a non-empty value.
Otherwise it generates one from a random token, optionally written as `<prefix>-<token>`.
While the handler runs, the id sits in a process-wide `Map<number, string>` keyed by the trigger async id.
When the handler settles, the middleware writes the id to the response header and deletes the map entry.

Modules:

- `Wrappers` (`wrappers.dfy`): `Option`, standing for `value | undefined`.
- `RequestId` (`request_id.dfy`): the default header name, `Options`, and JavaScript truthiness of optional strings.
  It also holds `HeaderName` (`getHeaderName`) and `GetOrCreateRequestId` (`getOrCreateRequestId`).
- `Store` (`store.dfy`): the id store as `map<int, string>` and `GetRequestId` (`getRequestId`).
  It also holds the middleware's two halves as pure transitions: `Enter` (choose and store the id) and `Exit` (header write plus delete).
- `Middleware` (`middleware.dfy`): one request through the middleware.
  The downstream handler is a function parameter that settles with a value or a failure.
  The exit step runs on both outcomes, as `.finally` does.
- `Lifecycle` (`lifecycle.dfy`): many requests whose entry and exit steps the host interleaves in any order, all on the one shared store.
  It proves that the store keeps in-flight requests apart when their trigger ids are distinct, and that it empties once all requests have settled.
  It also shows by a concrete case what goes wrong when two in-flight requests share a trigger id.

Host behaviour enters only as parameters:

- `asyncHooks.triggerAsyncId()` is an integer `trigger`.
- `uuid()` is a string `token`.
- `ctx.headers` is a `map<string, string>`.
- `ctx.set` is a recorded `HeaderWrite`, applied to a response header map.

## Model

| member | source | states |
|---|---|---|
| `RequestId.HeaderName` | src/index.ts:52-54 | The header name is never empty. It is the configured name when that name is set and non-empty. Any result other than `x-request-id` is the configured name. |
| `RequestId.HeaderNameFixpoint` | src/index.ts:52-54 | Configuring the resolved header name explicitly yields the same header name. |
| `RequestId.GetOrCreateRequestId` | src/index.ts:62-74 | A non-empty inbound value under the configured name is adopted verbatim, with no prefix. Otherwise the id ends with the token. With a prefix it starts with `prefix + "-"` and is exactly one character longer than prefix plus token. With no prefix it is the token. A non-empty token always gives a non-empty id. |
| `RequestId.AdoptedIgnoresPrefixAndToken` | src/index.ts:65-67 | Once an inbound id is adopted, changing the prefix or the token does not change the chosen id. |
| `RequestId.OnlyConfiguredHeaderMatters` | src/index.ts:63-67 | Two header maps that agree on the configured header give the same id: no other header has any influence. |
| `RequestId.GeneratedIdsDistinct` | src/index.ts:69-73 | When no id is adopted, distinct tokens give distinct ids, with or without a prefix. |
| `RequestId.PropagatedIdIsAdopted` | src/index.ts:62-67 | The configured header name must be a valid HTTP token with no upper-case letter. The chosen id must be a header value Node accepts (tab, `' '..'~'` or 0x80-0xFF) with no space or tab at either end. Under those conditions, forwarding the id under that name makes a downstream service with the same options adopt exactly that id, whatever its own token. In the downstream's inbound map the name is lower-cased and the value arrives as sent. |
| `RequestId.MixedCaseHeaderNameNotAdopted` | src/index.ts:63-67 | With the configured name `X-Corr-Id`, a forwarded id arrives under `x-corr-id`. The lookup under `X-Corr-Id` finds nothing, so the downstream service generates its own id from its token. |
| `Store.GetRequestId` | src/index.ts:24-26 | The result is absent exactly when the trigger id has no entry. Otherwise it is the stored id. |
| `Store.Enter` | src/index.ts:35-38 | The stored id is the one `GetOrCreateRequestId` chose. A read at the same trigger id returns it. The key set grows by that trigger id alone. Every other key reads as before. |
| `Store.Exit` | src/index.ts:40-43 | The response write is the id under `HeaderName(options)`. The trigger id's entry is removed and only that key leaves the key set. Every other key reads as before. |
| `Store.EnterExitRestores` | src/index.ts:35-43 | Entry followed by exit at one trigger id leaves the store minus that key. If the key was absent before entry, the store is exactly as it was. |
| `Middleware.Handle` | src/index.ts:33-45 | The handler's outcome is what it produces on reading the chosen id, and it is passed back unchanged. The response is the inbound response with the chosen id set under the configured header name (by `Apply`, which leaves every other response header unchanged). The store ends as before minus the trigger id's entry. |
| `Middleware.ExitIndependentOfOutcome` | src/index.ts:40-43 | A resolving handler and a rejecting handler leave the same store and the same response headers. Each outcome passes through as is. |
| `Middleware.DefaultHeaderRoundTrip` | src/index.spec.ts:97-128 | With default options and no inbound id, the response is `x-request-id` set to the token. With an inbound `x-request-id` value, the response echoes that value. |
| `Lifecycle.Step` | src/index.ts:33-45 | An arrival adds exactly that request to the in-flight set, with the id `GetOrCreateRequestId` chose, and stores that id under its trigger id. The recorded response writes are left as they were. Settling an in-flight request removes exactly that request from the in-flight set. It adds its own header write (its configured name and its own id) to the recorded writes, leaving every other request's write as it was. It also deletes its trigger id from the store, whoever wrote that entry. Settling a request not in flight changes nothing. Other in-flight requests are untouched. |
| `Lifecycle.StepConsistent` | src/index.ts:35-42 | An event that reuses no in-flight trigger id keeps the invariant. The invariant: one store entry per in-flight request, under its trigger id, holding its id, and nothing else in the store. |
| `Lifecycle.RunConsistent` | src/index.ts:33-45 | Every admissible sequence of arrivals and settlements keeps that invariant. |
| `Lifecycle.InFlightReadsOwnId` | src/index.ts:24-26 | After any admissible sequence from the initial state, each in-flight request reads its own id at its trigger id and never another request's. |
| `Lifecycle.StepTracked` | src/index.ts:38-42 | Any settlement, and any arrival of a request not seen before, keeps every store key the trigger id of some in-flight request. This holds even when trigger ids are shared. |
| `Lifecycle.RunTracked` | src/index.ts:38-42 | Every sequence in which each request arrives at most once keeps that invariant. Trigger ids may repeat. |
| `Lifecycle.SettledRunLeavesNothing` | src/index.ts:38-42 | Once every arrived request has settled, the store is empty and a read at any trigger id is absent: there is no cross-request leakage. The only hypothesis is that each request arrives once. In-flight requests may share trigger ids, because every exit deletes its own key. |
| `Lifecycle.SharedTriggerLosesEntry` | src/index.ts:38-42 | Two in-flight requests under one trigger id: the second overwrites the first's entry. The first's exit still writes the first's own id, but deletes the entry the second request is still using. |

## Left out

- Hop count, session and session-group headers, per-request data (`setData`/`getData`) and `getOrCreateAsyncContextId`: only `src/index.spec.ts` mentions them. `src/index.ts` has none of them, so the model follows the code.
- An async-hooks inheritance tracker: `src/index.ts` registers no hooks, even though the comment at `examples/koa.ts:8` says it sets one up. The middleware itself deletes its entry when `next()` settles, and the model follows that code.
- `asyncHooks.triggerAsyncId()`: an opaque integer parameter. Whether a handler's own call returns the middleware's trigger id is host scheduling behaviour, so the model states reads at the middleware's trigger id. `Lifecycle.Admissible` assumes that in-flight requests have distinct trigger ids. Only `Lifecycle.StepConsistent`, `Lifecycle.RunConsistent` and `Lifecycle.InFlightReadsOwnId` need that, together with their helpers `Lifecycle.ArriveConsistent`, `Lifecycle.SettleConsistent` and `Lifecycle.TriggersRemove`. The no-leak result `Lifecycle.SettledRunLeavesNothing` does not.
- `uuid()`: an opaque token parameter. Global uniqueness of tokens cannot be modelled, so `RequestId.GeneratedIdsDistinct` takes distinct tokens as a hypothesis.
- Koa, supertest, sinon and the HTTP round trip: `ctx.headers` is a string map as delivered by the host. Node lower-cases inbound header names before that map is built. Only the propagation lemmas model that, through `RequestId.Received`. The response headers the model records are the ones `ctx.set` leaves behind. On a rejection, Koa's default error handler removes every header set so far before it responds, so the client never sees the id on an error response.
- RequestId.PropagatedIdIsAdopted: the HTTP hop itself is not modelled. The lemma assumes one general condition: the name is a valid HTTP token and the id a valid header value that crosses the hop unchanged. Its `requires` state this as `IsToken` and `SurvivesHop`, and it says nothing about other options. Examples the lemma excludes:
  - A header name with a space, a `:` or a non-ASCII letter, such as `x request id`: Node's outbound request throws before anything is sent.
  - A prefix with a control character, such as a newline or U+007F, or with a character above U+00FF: Node throws as well.
  - A prefix with leading spaces or tabs, giving an id such as `" svc-<token>"`: the downstream HTTP parser strips the whitespace, so the downstream adopts `"svc-<token>"`.
- Middleware.Apply: `ctx.set` overwrites a response header without regard to the case of its name. `Apply` keeps names that differ only in case, such as `x-request-id` and `X-Request-ID`, as two headers.
- Store.Exit: the model assumes `ctx.set` returns normally. In the source, `ctx.set` runs before `storage.delete`. Node's `setHeader` throws for a header name that is not a valid HTTP token, such as `x request id`, and for a value with characters outside latin-1. A throw there skips the delete, so the entry leaks, and the returned promise rejects with that error. `Lifecycle.SettledRunLeavesNothing` holds only under that assumption.
- Middleware.Handle: the model assumes `ctx.set` returns normally, as for `Store.Exit`. With a throwing `ctx.set`, the outcome is that error rather than the handler's. The model also fixes `opts` when the request arrives. The source re-evaluates `getHeaderName(options)` at exit on the caller's mutable options object, so a change to `options.headerName` while a request is in flight changes the response header name.
- JavaScript truthiness corner cases: header values are strings only (no arrays), and a value counts as present exactly when it is defined and non-empty.
- `examples/koa.ts`: a usage demo whose only extra behaviour is an outbound HTTP call.

=== FILE: lifecycle.dfy ===
/**
  Many requests through the same middleware, their entry and exit steps
  interleaved by the host in any order, all sharing the one process-wide
  store (src/index.ts:6, 33-45).

  Each request is named by a number of the model's own; its trigger id is
  whatever `asyncHooks.triggerAsyncId()` returned when it arrived. The store
  keeps every in-flight request's id apart exactly when no two in-flight
  requests share a trigger id.
 */
module Lifecycle {
  import opened Wrappers
  import opened RequestId
  import opened Store

  /** A request between its entry and its exit step. */
  datatype Flight = Flight(trigger: int, requestId: string, opts: Options)

  /** The host's view of one request: it arrives, later its handler settles. */
  datatype Event =
    | Arrive(req: nat, trigger: int, headers: Headers, opts: Options, token: string)
    | Settle(req: nat)

  /** The shared store, the requests in flight, and the header each finished request wrote. */
  datatype Server = Server(store: Store, inflight: map<nat, Flight>, sent: map<nat, HeaderWrite>)

  /** No request has arrived yet. */
  const Initial: Server := Server(Empty, map[], map[])

  /** The trigger ids the in-flight requests entered under. */
  function Triggers(inflight: map<nat, Flight>): (ts: set<int>)
    ensures forall r :: r in inflight ==> inflight[r].trigger in ts
  {
    set r | r in inflight :: inflight[r].trigger
  }

  /** True when no two in-flight requests entered under the same trigger id. */
  predicate DistinctTriggers(inflight: map<nat, Flight>)
  {
    forall r1, r2 :: r1 in inflight && r2 in inflight && r1 != r2 ==>
      inflight[r1].trigger != inflight[r2].trigger
  }

  /**
    The store holds exactly one entry per in-flight request, under that
    request's trigger id, holding that request's id.
   */
  predicate Consistent(sv: Server)
  {
    && DistinctTriggers(sv.inflight)
    && sv.store.Keys == Triggers(sv.inflight)
    && (forall r :: r in sv.inflight ==> GetRequestId(sv.store, sv.inflight[r].trigger) == Some(sv.inflight[r].requestId))
    && sv.inflight.Keys !! sv.sent.Keys
  }

  /**
    One event. An arrival runs the entry step; a settlement of an in-flight
    request runs its exit step and records the response header it writes.
    A settlement of a request not in flight has no `next()` to attach to and
    changes nothing.
   */
  function Step(sv: Server, ev: Event): (next: Server)
    // an arrival stores the id GetOrCreateRequestId chose, under its trigger id
    ensures ev.Arrive? ==>
              var id := GetOrCreateRequestId(ev.headers, ev.opts, ev.token);
              && ev.req in next.inflight
              && next.inflight[ev.req] == Flight(ev.trigger, id, ev.opts)
              && next.store == sv.store[ev.trigger := id]
              && next.inflight.Keys == sv.inflight.Keys + {ev.req}
              && next.sent == sv.sent
    // settling an in-flight request writes its own id and deletes its own trigger id
    ensures ev.Settle? && ev.req in sv.inflight ==>
              && next.inflight.Keys == sv.inflight.Keys - {ev.req}
              && next.sent == sv.sent[ev.req := HeaderWrite(HeaderName(sv.inflight[ev.req].opts), sv.inflight[ev.req].requestId)]
              && next.store == sv.store - {sv.inflight[ev.req].trigger}
    ensures ev.Settle? && ev.req !in sv.inflight ==> next == sv
    ensures forall r :: r in sv.inflight && r != ev.req ==> r in next.inflight && next.inflight[r] == sv.inflight[r]
  {
    match ev
    case Arrive(req, trigger, headers, opts, token) =>
      var e := Enter(sv.store, trigger, headers, opts, token);
      Server(e.store, sv.inflight[req := Flight(trigger, e.requestId, opts)], sv.sent)
    case Settle(req) =>
      if req in sv.inflight then
        var f := sv.inflight[req];
        var x := Exit(sv.store, f.trigger, f.requestId, f.opts);
        Server(x.store, sv.inflight - {req}, sv.sent[req := x.write])
      else
        sv
  }

  /** A request arrives at most once: its number is neither in flight nor finished. */
  predicate ArrivesOnce(sv: Server, ev: Event)
  {
    ev.Arrive? ==> ev.req !in sv.inflight && ev.req !in sv.sent
  }

  /**
    What the host must guarantee of an event for requests to be kept apart:
    a request arrives once, under a trigger id no in-flight request holds.
   */
  predicate Admissible(sv: Server, ev: Event)
  {
    && ArrivesOnce(sv, ev)
    && (ev.Arrive? ==> ev.trigger !in Triggers(sv.inflight))
  }

  /** The server after a whole sequence of events. */
  function Run(sv: Server, evs: seq<Event>): Server
    decreases |evs|
  {
    if evs == [] then sv else Run(Step(sv, evs[0]), evs[1..])
  }

  /** Every request of the sequence arrives at most once; trigger ids may repeat. */
  predicate OnceRun(sv: Server, evs: seq<Event>)
    decreases |evs|
  {
    evs == [] || (ArrivesOnce(sv, evs[0]) && OnceRun(Step(sv, evs[0]), evs[1..]))
  }

  /** Every event of the sequence is admissible where it happens. */
  predicate AdmissibleRun(sv: Server, evs: seq<Event>)
    decreases |evs|
  {
    evs == [] || (Admissible(sv, evs[0]) && AdmissibleRun(Step(sv, evs[0]), evs[1..]))
  }

  /** A new in-flight request adds exactly its own trigger id. */
  lemma TriggersAdd(inflight: map<nat, Flight>, req: nat, f: Flight)
    requires req !in inflight
    ensures Triggers(inflight[req := f]) == Triggers(inflight) + {f.trigger}
  {
    var after := inflight[req := f];
    forall t | t in Triggers(after)
      ensures t in Triggers(inflight) + {f.trigger}
    {
      var r :| r in after && after[r].trigger == t;
      if r != req {
        assert r in inflight && inflight[r].trigger == t;
      }
    }
    forall t | t in Triggers(inflight)
      ensures t in Triggers(after)
    {
      var r :| r in inflight && inflight[r].trigger == t;
      assert r in after && after[r].trigger == t;
    }
    assert after[req].trigger == f.trigger;
  }

  /** With distinct trigger ids, a settled request takes exactly its own trigger id away. */
  lemma TriggersRemove(inflight: map<nat, Flight>, req: nat)
    requires req in inflight
    requires DistinctTriggers(inflight)
    ensures Triggers(inflight - {req}) == Triggers(inflight) - {inflight[req].trigger}
  {
    var after := inflight - {req};
    forall t | t in Triggers(inflight) - {inflight[req].trigger}
      ensures t in Triggers(after)
    {
      var r :| r in inflight && inflight[r].trigger == t;
      assert r != req;
      assert r in after && after[r].trigger == t;
    }
    forall t | t in Triggers(after)
      ensures t in Triggers(inflight) - {inflight[req].trigger}
    {
      var r :| r in after && after[r].trigger == t;
      assert r in inflight && r != req;
    }
  }

  /** An admissible arrival keeps the store consistent with the requests in flight. */
  lemma ArriveConsistent(sv: Server, req: nat, trigger: int, headers: Headers, opts: Options, token: string)
    requires Consistent(sv)
    requires Admissible(sv, Arrive(req, trigger, headers, opts, token))
    ensures Consistent(Step(sv, Arrive(req, trigger, headers, opts, token)))
  {
    var next := Step(sv, Arrive(req, trigger, headers, opts, token));
    var f := Flight(trigger, GetOrCreateRequestId(headers, opts, token), opts);
    assert next.inflight == sv.inflight[req := f];
    TriggersAdd(sv.inflight, req, f);
    forall r | r in next.inflight
      ensures GetRequestId(next.store, next.inflight[r].trigger) == Some(next.inflight[r].requestId)
    {
      if r != req {
        assert next.inflight[r] == sv.inflight[r];
        assert sv.inflight[r].trigger != trigger;
      }
    }
  }

  /** A settlement keeps the store consistent with the requests in flight. */
  lemma SettleConsistent(sv: Server, req: nat)
    requires Consistent(sv)
    ensures Consistent(Step(sv, Settle(req)))
  {
    if req in sv.inflight {
      var next := Step(sv, Settle(req));
      var f := sv.inflight[req];
      assert next.inflight == sv.inflight - {req};
      TriggersRemove(sv.inflight, req);
      forall r | r in next.inflight
        ensures GetRequestId(next.store, next.inflight[r].trigger) == Some(next.inflight[r].requestId)
      {
        assert next.inflight[r] == sv.inflight[r];
        assert sv.inflight[r].trigger != f.trigger;
      }
    }
  }

  /** An admissible event keeps the store consistent with the requests in flight. */
  lemma {:induction false} StepConsistent(sv: Server, ev: Event)
    requires Consistent(sv)
    requires Admissible(sv, ev)
    ensures Consistent(Step(sv, ev))
  {
    match ev
    case Arrive(req, trigger, headers, opts, token) =>
      ArriveConsistent(sv, req, trigger, headers, opts, token);
    case Settle(req) =>
      SettleConsistent(sv, req);
  }

  /**
    Along any admissible sequence of events the store holds each in-flight
    request's own id under its trigger id, and nothing else.
   */
  lemma {:induction false} RunConsistent(sv: Server, evs: seq<Event>)
    requires Consistent(sv)
    requires AdmissibleRun(sv, evs)
    ensures Consistent(Run(sv, evs))
    decreases |evs|
  {
    if evs != [] {
      StepConsistent(sv, evs[0]);
      RunConsistent(Step(sv, evs[0]), evs[1..]);
    }
  }

  /**
    Isolation: after any admissible sequence of events, every in-flight
    request reads back its own id at its trigger id, never another request's.
   */
  lemma {:induction false} InFlightReadsOwnId(evs: seq<Event>, r: nat)
    requires AdmissibleRun(Initial, evs)
    requires r in Run(Initial, evs).inflight
    ensures var sv := Run(Initial, evs);
            GetRequestId(sv.store, sv.inflight[r].trigger) == Some(sv.inflight[r].requestId)
  {
    RunConsistent(Initial, evs);
  }

  /** The store holds entries only under trigger ids of in-flight requests. */
  predicate Tracked(sv: Server)
  {
    sv.store.Keys <= Triggers(sv.inflight)
  }

  /**
    Any settlement, and any arrival of a new request, keeps every store entry
    owned by some in-flight request, even when trigger ids are shared.
   */
  lemma StepTracked(sv: Server, ev: Event)
    requires Tracked(sv)
    requires ArrivesOnce(sv, ev)
    ensures Tracked(Step(sv, ev))
  {
    var next := Step(sv, ev);
    match ev
    case Arrive(req, trigger, headers, opts, token) =>
      TriggersAdd(sv.inflight, req, next.inflight[req]);
    case Settle(req) =>
      if req in sv.inflight {
        var after := sv.inflight - {req};
        forall t | t in next.store
          ensures t in Triggers(after)
        {
          assert t in Triggers(sv.inflight) && t != sv.inflight[req].trigger;
          var r :| r in sv.inflight && sv.inflight[r].trigger == t;
          assert r in after && after[r].trigger == t;
        }
      }
  }

  /** Along any sequence in which each request arrives once, the store stays tracked. */
  lemma {:induction false} RunTracked(sv: Server, evs: seq<Event>)
    requires Tracked(sv)
    requires OnceRun(sv, evs)
    ensures Tracked(Run(sv, evs))
    decreases |evs|
  {
    if evs != [] {
      StepTracked(sv, evs[0]);
      RunTracked(Step(sv, evs[0]), evs[1..]);
    }
  }

  /**
    No leakage: once every request that arrived has settled, the store is
    empty again and a read at any trigger id reports no id. Every exit step
    deletes its own trigger id, so this holds even when in-flight requests
    shared a trigger id.
   */
  lemma {:induction false} SettledRunLeavesNothing(evs: seq<Event>, trigger: int)
    requires OnceRun(Initial, evs)
    requires Run(Initial, evs).inflight == map[]
    ensures Run(Initial, evs).store == Empty
    ensures GetRequestId(Run(Initial, evs).store, trigger) == None
  {
    RunTracked(Initial, evs);
    assert Triggers(map[]) == {};
  }

  /**
    Without distinct trigger ids the store cannot keep requests apart: when
    two in-flight requests share a trigger id, the second entry overwrites the
    first, and the first request's exit step deletes the entry the second is
    still relying on.
   */
  lemma SharedTriggerLosesEntry(trigger: int, token1: string, token2: string)
    requires token1 != token2
    ensures var a := Step(Initial, Arrive(1, trigger, map[], NoOptions, token1));
            var b := Step(a, Arrive(2, trigger, map[], NoOptions, token2));
            var c := Step(b, Settle(1));
            && GetRequestId(b.store, trigger) == Some(token2)
            && c.sent[1] == HeaderWrite(DefaultHeaderName, token1)
            && 2 in c.inflight
            && GetRequestId(c.store, trigger) == None
  {
    var a := Step(Initial, Arrive(1, trigger, map[], NoOptions, token1));
    assert a.inflight[1].requestId == token1;
    var b := Step(a, Arrive(2, trigger, map[], NoOptions, token2));
    assert b.inflight[1].requestId == token1;
    assert GetRequestId(b.store, trigger) == Some(token2);
  }
}

=== FILE: middleware.dfy ===
/**
  One run of the middleware returned by `middleware(options)` (src/index.ts:33-45)
  around a downstream handler.

  The handler stands for `next()`: it is given what `getRequestId` reports at
  the middleware's trigger id while it runs, and settles with a value or a
  failure. The exit step is attached with `.finally`, so it runs on both.
 */
module Middleware {
  import opened Wrappers
  import opened RequestId
  import opened Store

  /** How the promise returned by `next()` settles. */
  datatype Settled<V, E> = Resolved(value: V) | Rejected(error: E)

  /** Outgoing response headers, as `ctx.set` leaves them. */
  type Response = map<string, string>

  /** Everything one run of the middleware leaves behind. */
  datatype Completed<V, E> = Completed(store: Store, response: Response, outcome: Settled<V, E>)

  /** `ctx.set(name, value)`: overwrite one response header. */
  function Apply(response: Response, w: HeaderWrite): (r: Response)
    ensures r.Keys == response.Keys + {w.name}
    ensures r[w.name] == w.value
    ensures forall n :: n in response && n != w.name ==> r[n] == response[n]
  {
    response[w.name := w.value]
  }

  /**
    One request through the middleware: entry, the handler, then the exit step
    whichever way the handler settles. The handler's outcome comes back
    unchanged, the response carries the chosen id under the configured header
    name, and the store is back to what it was minus the trigger id's entry.
   */
  function Handle<V, E>(s: Store, trigger: int, headers: Headers, opts: Options, token: string,
                        response: Response, next: Option<string> -> Settled<V, E>): (c: Completed<V, E>)
    ensures c.outcome == next(Some(GetOrCreateRequestId(headers, opts, token)))
    ensures c.response == Apply(response, HeaderWrite(HeaderName(opts), GetOrCreateRequestId(headers, opts, token)))
    ensures c.store == s - {trigger}
  {
    var e := Enter(s, trigger, headers, opts, token);
    var seen := GetRequestId(e.store, trigger);
    assert seen == Some(e.requestId);
    var x := Exit(e.store, trigger, e.requestId, opts);
    assert x.store == s - {trigger};
    Completed(x.store, Apply(response, x.write), next(seen))
  }

  /**
    Whether the handler resolves or rejects makes no difference to the store
    or to the response headers the middleware writes.
   */
  lemma ExitIndependentOfOutcome<V, E>(s: Store, trigger: int, headers: Headers, opts: Options, token: string,
                                       response: Response, v: V, err: E)
    ensures var ok := Handle<V, E>(s, trigger, headers, opts, token, response, _ => Resolved(v));
            var failed := Handle<V, E>(s, trigger, headers, opts, token, response, _ => Rejected(err));
            ok.store == failed.store && ok.response == failed.response
            && ok.outcome == Resolved(v) && failed.outcome == Rejected(err)
  {
  }

  /**
    With no inbound id and no options, the response header `x-request-id`
    carries the bare token; with an inbound id it echoes that id.
   */
  lemma DefaultHeaderRoundTrip<V, E>(s: Store, trigger: int, inbound: string, token: string,
                                     next: Option<string> -> Settled<V, E>)
    requires inbound != ""
    ensures Handle(s, trigger, map[], NoOptions, token, map[], next).response == map[DefaultHeaderName := token]
    ensures Handle(s, trigger, map[DefaultHeaderName := inbound], NoOptions, token, map[], next).response
         == map[DefaultHeaderName := inbound]
  {
    assert HeaderName(NoOptions) == DefaultHeaderName;
  }
}

=== FILE: request_id.dfy ===
/**
  Choosing the correlation id of one inbound request (src/index.ts:5, 52-74).

  The random token that `uuid()` would produce is a parameter: whatever it is,
  the choice below is deterministic in the headers, the options and the token.
 */
module RequestId {
  import opened Wrappers

  /** The header read and written when no header name is configured. */
  const DefaultHeaderName: string := "x-request-id"

  /** Middleware configuration; an absent field is JavaScript `undefined`. */
  datatype Options = Options(prefix: Option<string>, headerName: Option<string>)

  /** The configuration `middleware()` uses when called with no argument. */
  const NoOptions: Options := Options(None, None)

  /** Inbound request headers, as the host framework hands them over. */
  type Headers = map<string, string>

  /** JavaScript truthiness of an optional string: defined and non-empty. */
  predicate Truthy(v: Option<string>)
  {
    v.Some? && v.value != ""
  }

  /** `headers[name]`: the value under `name`, or `undefined`. */
  function Lookup(headers: Headers, name: string): Option<string>
  {
    if name in headers then Some(headers[name]) else None
  }

  /** True when `s` begins with `p`. */
  predicate StartsWith(s: string, p: string)
  {
    |p| <= |s| && s[..|p|] == p
  }

  /** True when `s` finishes with `t`. */
  predicate EndsWith(s: string, t: string)
  {
    |t| <= |s| && s[|s| - |t|..] == t
  }

  /**
    `getHeaderName`: the configured header name when it is truthy, the default
    otherwise. The name is never empty, so it is always usable as a header.
   */
  function HeaderName(opts: Options): (name: string)
    ensures name != ""
    ensures Truthy(opts.headerName) ==> name == opts.headerName.value
    ensures name != DefaultHeaderName ==> opts.headerName == Some(name)
  {
    if Truthy(opts.headerName) then opts.headerName.value else DefaultHeaderName
  }

  /** Configuring the resolved header name explicitly changes nothing. */
  lemma HeaderNameFixpoint(opts: Options)
    ensures HeaderName(Options(opts.prefix, Some(HeaderName(opts)))) == HeaderName(opts)
  {
  }

  /** True when the inbound headers carry a truthy id under the configured name. */
  predicate Adopts(headers: Headers, opts: Options)
  {
    Truthy(Lookup(headers, HeaderName(opts)))
  }

  /**
    `getOrCreateRequestId`: adopt the inbound id when there is one, otherwise
    build `<prefix>-<token>` when a prefix is configured, otherwise use the token.
   */
  function GetOrCreateRequestId(headers: Headers, opts: Options, token: string): (id: string)
    // an adopted id is the inbound value verbatim: no prefix, no token
    ensures Adopts(headers, opts) ==> id == headers[HeaderName(opts)]
    // a generated id always finishes with the token
    ensures !Adopts(headers, opts) ==> EndsWith(id, token)
    ensures !Adopts(headers, opts) && Truthy(opts.prefix) ==>
              StartsWith(id, opts.prefix.value + "-") && |id| == |opts.prefix.value| + 1 + |token|
    ensures !Adopts(headers, opts) && !Truthy(opts.prefix) ==> id == token
    // with a non-empty token the id is always truthy
    ensures token != "" ==> id != ""
  {
    var name := HeaderName(opts);
    if Truthy(Lookup(headers, name)) then
      headers[name]
    else if Truthy(opts.prefix) then
      opts.prefix.value + "-" + token
    else
      token
  }

  /**
    Once an inbound id is adopted, neither the prefix nor the token has any
    say in the result.
   */
  lemma AdoptedIgnoresPrefixAndToken(headers: Headers, opts: Options, prefix: Option<string>,
                                     token1: string, token2: string)
    requires Adopts(headers, opts)
    ensures GetOrCreateRequestId(headers, opts, token1)
         == GetOrCreateRequestId(headers, Options(prefix, opts.headerName), token2)
  {
  }

  /**
    Only the header under the configured name matters: headers under any
    other name leave the choice unchanged.
   */
  lemma OnlyConfiguredHeaderMatters(headers: Headers, other: Headers, opts: Options, token: string)
    requires Lookup(headers, HeaderName(opts)) == Lookup(other, HeaderName(opts))
    ensures GetOrCreateRequestId(headers, opts, token) == GetOrCreateRequestId(other, opts, token)
  {
  }

  /**
    Distinct tokens give distinct generated ids, so two requests that both
    generate an id get different ids whenever `uuid()` hands out different tokens.
   */
  lemma {:induction false} GeneratedIdsDistinct(headers: Headers, opts: Options, token1: string, token2: string)
    requires !Adopts(headers, opts)
    requires token1 != token2
    ensures GetOrCreateRequestId(headers, opts, token1) != GetOrCreateRequestId(headers, opts, token2)
  {
    var id1 := GetOrCreateRequestId(headers, opts, token1);
    var id2 := GetOrCreateRequestId(headers, opts, token2);
    if Truthy(opts.prefix) {
      var p := opts.prefix.value + "-";
      assert id1 == p + token1 && id2 == p + token2;
      assert id1[|p|..] == token1;
      assert id2[|p|..] == token2;
    }
  }

  /** ASCII lower-casing of one character. */
  function LowerChar(c: char): char
  {
    if 'A' <= c <= 'Z' then (c as int + 32) as char else c
  }

  /** ASCII lower-casing of a header name, as Node applies it to inbound header names. */
  function LowerAscii(s: string): (r: string)
    ensures |r| == |s|
    ensures IsLowerCase(r)
    ensures IsLowerCase(s) ==> r == s
  {
    seq(|s|, i requires 0 <= i < |s| => LowerChar(s[i]))
  }

  /** True when a header name has no upper-case ASCII letter. */
  predicate IsLowerCase(s: string)
  {
    forall i :: 0 <= i < |s| ==> !('A' <= s[i] <= 'Z')
  }

  /** One character of an HTTP token (section 5.6.2 of RFC 9110). */
  predicate IsTokenChar(c: char)
  {
    || 'a' <= c <= 'z' || 'A' <= c <= 'Z' || '0' <= c <= '9'
    || c in "!#$%&'*+-.^_`|~"
  }

  /** True when a header name is a valid HTTP token, as Node checks outbound header names. */
  predicate IsToken(s: string)
  {
    |s| > 0 && forall i :: 0 <= i < |s| ==> IsTokenChar(s[i])
  }

  /** One character Node accepts in an outbound header value: tab, visible ASCII, space or 0x80-0xFF. */
  predicate IsValueChar(c: char)
  {
    c == '\t' || ' ' <= c <= '~' || 0x80 as char <= c <= 0xFF as char
  }

  /**
    True when a header value is accepted on the way out and arrives as it was
    sent: only accepted characters, and no space or tab at either end, which
    the receiving parser would strip.
   */
  predicate SurvivesHop(v: string)
  {
    && (forall i :: 0 <= i < |v| ==> IsValueChar(v[i]))
    && (|v| > 0 ==> v[0] != ' ' && v[0] != '\t' && v[|v| - 1] != ' ' && v[|v| - 1] != '\t')
  }

  /**
    The inbound header map a service receives when `name: value` is sent to
    it on top of `headers`: the host lower-cases the name first.
   */
  function Received(headers: Headers, name: string, value: string): Headers
  {
    headers[LowerAscii(name) := value]
  }

  /**
    Passing the chosen id on to a service configured with the same lower-case
    header name, under that name, makes that service adopt it unchanged: the
    id is stable across hops. The name must be a valid HTTP token and the id a
    header value that crosses the hop unchanged; otherwise the outbound
    request throws or the receiving parser alters the value.
   */
  lemma {:induction false} PropagatedIdIsAdopted(headers: Headers, opts: Options, token: string,
                                                 downstream: Headers, downstreamToken: string)
    requires token != ""
    requires IsLowerCase(HeaderName(opts))
    requires IsToken(HeaderName(opts))
    requires SurvivesHop(GetOrCreateRequestId(headers, opts, token))
    ensures var id := GetOrCreateRequestId(headers, opts, token);
            var forwarded := Received(downstream, HeaderName(opts), id);
            Adopts(forwarded, opts) && GetOrCreateRequestId(forwarded, opts, downstreamToken) == id
  {
    var id := GetOrCreateRequestId(headers, opts, token);
    assert id != "";
    var name := HeaderName(opts);
    var forwarded := Received(downstream, name, id);
    assert Lookup(forwarded, name) == Some(id);
  }

  /**
    With a configured header name that has an upper-case letter, the id never
    reaches the downstream lookup: the host files it under the lower-cased
    name, and the downstream service generates a fresh id from its own token.
   */
  lemma MixedCaseHeaderNameNotAdopted(id: string, downstreamToken: string)
    ensures var opts := Options(None, Some("X-Corr-Id"));
            var forwarded := Received(map[], HeaderName(opts), id);
            !Adopts(forwarded, opts) && GetOrCreateRequestId(forwarded, opts, downstreamToken) == downstreamToken
  {
    var opts := Options(None, Some("X-Corr-Id"));
    var lowered := LowerAscii("X-Corr-Id");
    assert lowered[0] == 'x';
    assert lowered != "X-Corr-Id";
    assert Lookup(Received(map[], HeaderName(opts), id), "X-Corr-Id") == None;
  }
}

=== FILE: store.dfy ===
/**
  The process-wide id store (src/index.ts:6) and the two halves of the
  middleware's lifecycle around it (src/index.ts:24-26, 33-45).

  `asyncHooks.triggerAsyncId()` is an opaque integer parameter named `trigger`.
 */
module Store {
  import opened Wrappers
  import opened RequestId

  /** `storage`: trigger id to request id. */
  type Store = map<int, string>

  /** The store as the module starts out. */
  const Empty: Store := map[]

  /** The response header write `ctx.set(name, value)`. */
  datatype HeaderWrite = HeaderWrite(name: string, value: string)

  /** Store after the entry step, and the id the request was given. */
  datatype Entered = Entered(store: Store, requestId: string)

  /** Store after the exit step, and the response header it writes. */
  datatype Exited = Exited(store: Store, write: HeaderWrite)

  /**
    `getRequestId`: the id stored under the trigger id, or `undefined` when the
    store has no entry for it. It only reads the store, which it takes by value.
   */
  function GetRequestId(s: Store, trigger: int): (r: Option<string>)
    ensures r == None <==> trigger !in s
    ensures r.Some? ==> trigger in s && s[trigger] == r.value
  {
    if trigger in s then Some(s[trigger]) else None
  }

  /**
    The middleware's entry step: choose the id, then store it under the
    current trigger id (src/index.ts:35-38).
   */
  function Enter(s: Store, trigger: int, headers: Headers, opts: Options, token: string): (e: Entered)
    ensures e.requestId == GetOrCreateRequestId(headers, opts, token)
    ensures GetRequestId(e.store, trigger) == Some(e.requestId)
    ensures e.store.Keys == s.Keys + {trigger}
    ensures forall k :: k != trigger ==> GetRequestId(e.store, k) == GetRequestId(s, k)
  {
    var requestId := GetOrCreateRequestId(headers, opts, token);
    Entered(s[trigger := requestId], requestId)
  }

  /**
    The middleware's exit step, run once `next()` settles: write the id to the
    response under the configured header name, then delete the trigger id's
    entry (src/index.ts:40-43). Every other entry is left as it was.
   */
  function Exit(s: Store, trigger: int, requestId: string, opts: Options): (x: Exited)
    ensures x.write == HeaderWrite(HeaderName(opts), requestId)
    ensures GetRequestId(x.store, trigger) == None
    ensures x.store.Keys == s.Keys - {trigger}
    ensures forall k :: k != trigger ==> GetRequestId(x.store, k) == GetRequestId(s, k)
  {
    Exited(s - {trigger}, HeaderWrite(HeaderName(opts), requestId))
  }

  /**
    Entry followed directly by exit at the same trigger id leaves the store
    as it was, except that the trigger id's own entry is gone; in particular a
    key that was absent before entry is absent again afterwards.
   */
  lemma EnterExitRestores(s: Store, trigger: int, headers: Headers, opts: Options, token: string)
    ensures var e := Enter(s, trigger, headers, opts, token);
            Exit(e.store, trigger, e.requestId, opts).store == s - {trigger}
    ensures trigger !in s ==>
              var e := Enter(s, trigger, headers, opts, token);
              Exit(e.store, trigger, e.requestId, opts).store == s
  {
  }
}

=== FILE: wrappers.dfy ===
/** The optional-value datatype used for JavaScript's `value | undefined`. */
module Wrappers {

  /** `None` stands for `undefined`, `Some(v)` for a defined value `v`. */
  datatype Option<+T> = None | Some(value: T)
}
